=== FILE: README.md ===
# Slouch detector: calibration and scoring

A Dafny model of the posture core of HabitKicker's `SlouchDetector`
(`habitkicker/detectors/slouch_detector.py`), with proofs of what the code
promises. The core has four parts:

- **Landmark extraction** (`Landmarks`). A pose result becomes a six-key
  snapshot: shoulders, nose, ears, and a neck derived as the shoulder
  midpoint. A pose without a landmark list gives the empty snapshot.
- **Calibration session** (`Calibration`, `Averaging`). `start_calibration`
  arms a 3 s countdown. Each `update_calibration` call then does one of
  three things: advances the countdown, takes at most one sample per
  0.1 s of the 3 s window, or, at the window's end, either completes or
  restarts the window when no sample was taken. Completion averages the
  samples key by key and coordinate by coordinate, marks the detector
  calibrated and saves the baseline.
- **Slouch scorer** (`Scorer`, `ScoringFacts`). `_calculate_slouch`
  combines three signals with weights 0.8, 0.1 and 0.4:
  - the shoulder drop against the nose-to-shoulder reference distance;
  - twice the change in the neck-to-nose angle;
  - how far the nose-neck distance shrank.
  It reports slouching when the sum is strictly above the threshold.
  `check_slouching` recomputes at most once per 0.1 s and otherwise
  answers from its cache.
- **Baseline store** (`Store`). `save_calibration` and `load_calibration`
  decide when a baseline may be written and when loading one sets
  `calibrated`.

The detector's mutable fields are an immutable `State.Detector` record.
Every operation is a function that returns the record it leaves behind.
The wall clock is a `now: real` parameter. Coordinates are `real`.
`np.sqrt` and `np.arccos` are function values bundled in
`Numerics.Math`, and `Numerics.Axioms` states the facts the model relies
on:
- the square root of a non-negative number is non-negative, positive for
  a positive number, and squares back to its argument;
- `sqrt(0) = 0`;
- the arc cosine maps [-1, 1] into [0, pi] and sends 1 to 0.

The outcome of a file write is a `Store.WriteOutcome` parameter. The file
itself is a `Store.StoreFile` value: missing, corrupt, or holding a
snapshot or None.

The model follows the code in these places:
- Loading a file whose content is empty or None still replaces the
  baseline, and it leaves `calibrated` unchanged instead of clearing it.
- A stored baseline that lacks one of the four scored keys makes
  `_calculate_slouch` raise `KeyError` (`Scorer.KeyErrorRaised`).
- With a threshold of 0, drawing a not-slouching decision divides by the
  threshold, so `check_slouching` raises after it has updated its cache
  (`Scorer.DrawingRaised`). For a percentage that is a Python number, the
  division at line 309 raises `ZeroDivisionError`. When numpy's square
  root or arc cosine has made it a numpy scalar, the division gives nan
  or -inf, and `int(255 * ratio)` at line 311 raises `ValueError` or
  `OverflowError`.
- There is no idle phase. On a fresh detector, countdown and start time
  are both 0, so an `update_calibration` call without `start_calibration`
  is already past the window's end.
- "Complete is a no-op" holds only when samples exist. A calibrated
  detector that has no samples, such as one loaded from the file, takes a
  forced sample at the window's end and reports completion.
- A baseline whose nose and neck coincide in the plane has a calibrated
  distance floored to 0.001. A live posture identical to that baseline
  then scores 40, not 0 (`ScoringFacts.IdenticalDegeneratePostureScoresForty`).

## Model

| member | source | states |
|---|---|---|
| State.JoinPath | habitkicker/detectors/slouch_detector.py:25 | the joined path starts with the head and ends with the tail, and is non-empty for a non-empty tail |
| State.CalibrationPath | habitkicker/detectors/slouch_detector.py:24-25 | the calibration file lies below the working directory and ends in `posture_calibration.pkl` |
| State.Initial | habitkicker/detectors/slouch_detector.py:10-32 | the constructor starts uncalibrated, without baseline, countdown or samples, and with an empty score cache |
| Store.New | habitkicker/detectors/slouch_detector.py:10-34 | a new detector is calibrated exactly when the file holds a non-empty mapping; its baseline is what the file holds, or None |
| Store.Save | habitkicker/detectors/slouch_detector.py:324-339 | a save succeeds only for a calibrated detector with a baseline and a write that goes through; a refused save leaves the file alone, and the file changes only when the open succeeds |
| Store.Load | habitkicker/detectors/slouch_detector.py:341-360 | a load succeeds exactly for a non-empty path and a readable non-empty mapping, and then sets the baseline and `calibrated`; any readable content becomes the baseline, so a falsy one replaces it but keeps `calibrated`; no other field changes |
| Store.SaveThenLoad | habitkicker/detectors/slouch_detector.py:324-360 | a successful save followed by a load restores the same baseline, and calibrates when that baseline is non-empty |
| Store.NewThenSave | habitkicker/detectors/slouch_detector.py:24-34 | a detector constructed from a file holding a non-empty baseline saves it back unchanged whenever the write goes through |
| Store.LoadCalibratesOnlyFromData | habitkicker/detectors/slouch_detector.py:347-357 | loading never clears `calibrated`, and sets it only from a non-empty stored mapping |
| Store.FailedSaveNeverHoldsData | habitkicker/detectors/slouch_detector.py:330-339 | a failed write reports failure and leaves the file as it was or unreadable, never holding this save's baseline |
| Landmarks.Midpoint | habitkicker/detectors/slouch_detector.py:150-155 | the neck is equidistant from both shoulders on every axis |
| Landmarks.Extract | habitkicker/detectors/slouch_detector.py:132-176 | no landmark list gives the empty map; otherwise exactly the six keys, read from indices 11, 12, 0, 7 and 8, with the neck at the shoulders' midpoint |
| Landmarks.ExtractAllOrNothing | habitkicker/detectors/slouch_detector.py:132-176 | an extraction is either empty or complete, and non-empty exactly when the pose has a landmark list |
| Landmarks.NeckBetweenShoulders | habitkicker/detectors/slouch_detector.py:150-155 | the derived neck lies between the two shoulders on each axis |
| Averaging.Mean | habitkicker/detectors/slouch_detector.py:103-122 | the baseline has the keys of the first sample |
| Averaging.MeanOfCompleteIsComplete | habitkicker/detectors/slouch_detector.py:105-108 | the mean of complete snapshots is complete |
| Averaging.MinCoord | habitkicker/detectors/slouch_detector.py:111-114 | the smallest sample coordinate: no sample is below it and some sample attains it |
| Averaging.MaxCoord | habitkicker/detectors/slouch_detector.py:111-114 | the largest sample coordinate: no sample is above it and some sample attains it |
| Averaging.SumWithinBounds | habitkicker/detectors/slouch_detector.py:110-114 | coordinates all in [lo, hi] add up to between n copies of lo and n copies of hi |
| Averaging.MeanWithinBounds | habitkicker/detectors/slouch_detector.py:110-119 | the mean of coordinates in [lo, hi] lies in [lo, hi] |
| Averaging.MeanWithinRange | habitkicker/detectors/slouch_detector.py:103-126 | every baseline coordinate lies between the minimum and the maximum of that coordinate across the samples |
| Averaging.MeanOfCopies | habitkicker/detectors/slouch_detector.py:103-126 | averaging copies of one snapshot gives it back, so one sample is its own baseline |
| Averaging.SumOfConcatenation | habitkicker/detectors/slouch_detector.py:110-114 | the sum over two sample lists joined is the sum of their sums |
| Averaging.SumIsOrderInsensitive | habitkicker/detectors/slouch_detector.py:110-114 | the sum of a coordinate does not depend on the order of the samples |
| Averaging.MeanIsOrderInsensitive | habitkicker/detectors/slouch_detector.py:103-126 | any permutation of complete samples gives the same baseline |
| Averaging.Average | habitkicker/detectors/slouch_detector.py:103-122 | the summing and dividing loops compute the per-key, per-coordinate mean |
| Calibration.Start | habitkicker/detectors/slouch_detector.py:36-42 | start is a full reset into the countdown: uncalibrated, no baseline, countdown 3, start time now, no samples; nothing else changes |
| Calibration.Complete | habitkicker/detectors/slouch_detector.py:96-130 | with no samples nothing changes; otherwise the detector becomes calibrated with the mean as baseline, and that baseline is saved |
| Calibration.Sample | habitkicker/detectors/slouch_detector.py:67-71 | a sample is taken exactly from a present pose with a landmark list, and is then complete |
| Calibration.CountdownStep | habitkicker/detectors/slouch_detector.py:48-61 | the countdown never completes; once it has elapsed the window opens at now with no samples and the sample clock at now; before that nothing changes |
| Calibration.SamplingStep | habitkicker/detectors/slouch_detector.py:63-73 | inside the window a call never completes and appends at most one sample, only when an interval has passed and a pose is present; the sample clock advances even when the extraction is empty |
| Calibration.WindowEndStep | habitkicker/detectors/slouch_detector.py:74-94 | at the window's end a call completes exactly when it is already calibrated, has samples, or can force one; an already calibrated detector changes nothing but the forced sample of one that has none; a fresh completion changes only the samples (by the forced one at most), `calibrated` and the baseline, which is their mean, and writes the file as a save of that baseline does; otherwise the window restarts at now |
| Calibration.Update | habitkicker/detectors/slouch_detector.py:44-94 | countdown and window calls never complete or touch the baseline; a countdown call changes only the countdown, start time, samples and sample clock; a window call changes only the samples and the sample clock, and keeps its samples or appends exactly this frame's sample, never inside the sample interval and never an empty one; only a call at the window's end completes, and a completion that gains calibration changes only the samples, `calibrated` and the baseline (their mean) and saves that baseline to the file |
| Calibration.CountdownExpiry | habitkicker/detectors/slouch_detector.py:53-59 | the call that ends the countdown leaves the session sampling, with no samples, timed from that call |
| Calibration.CompletionIsIdempotent | habitkicker/detectors/slouch_detector.py:84-89 | a calibrated detector at the window's end reports completion with baseline and file unchanged, and changes nothing at all when it has samples |
| Calibration.CompletedStaysComplete | habitkicker/detectors/slouch_detector.py:74-89 | after the call that completes calibration, any later call reports completion and leaves everything as it is |
| Calibration.SamplesAreSpaced | habitkicker/detectors/slouch_detector.py:67-68 | after a call that took a sample, a call less than one sample interval later takes none |
| Calibration.UpdateKeepsSamplesComplete | habitkicker/detectors/slouch_detector.py:67-81 | every collected sample stays a complete snapshot |
| Calibration.CompletedBaselineIsComplete | habitkicker/detectors/slouch_detector.py:84-126 | a calibration completed in this session yields a complete baseline |
| Calibration.RetryWithoutSamples | habitkicker/detectors/slouch_detector.py:90-94 | a window that ends with no samples and no usable pose restarts at now and stays uncalibrated |
| Calibration.CountdownRunNeverSamples | habitkicker/detectors/slouch_detector.py:36-61 | after a start, frames arriving before the countdown runs out never sample or complete, whatever poses they carry |
| Numerics.Clip | habitkicker/detectors/slouch_detector.py:234 | np.clip keeps a value inside [lo, hi], and returns the nearer bound otherwise |
| Numerics.Abs | habitkicker/detectors/slouch_detector.py:264-266 | abs is non-negative and equals the value or its negation |
| Scorer.Norm | habitkicker/detectors/slouch_detector.py:226-227 | the norm is the non-negative number whose square is the vector's squared length, and positive exactly for a non-zero vector |
| Scorer.LengthSign | habitkicker/detectors/slouch_detector.py:226-227 | the root of a sum of two squares is non-negative, positive exactly when one part is non-zero, and squares back to the sum |
| Scorer.SquaredDistance | habitkicker/detectors/slouch_detector.py:284-289 | the squared distance is non-negative and zero for points that agree in x and y |
| Scorer.DistanceIsNorm | habitkicker/detectors/slouch_detector.py:239-254 | the root of the squared distance is the norm of the difference vector |
| Scorer.ZeroSquaredDistance | habitkicker/detectors/slouch_detector.py:284-289 | the squared distance is zero exactly when the points agree in x and y |
| Scorer.AngleDifference | habitkicker/detectors/slouch_detector.py:214-237 | the angle lies in [0, 180] degrees and is 0 when either vector has no length |
| Scorer.AnglePercentage | habitkicker/detectors/slouch_detector.py:269 | the angle signal lies in [0, 360] and is 0 when either vector has no length |
| Scorer.CalibratedDistance | habitkicker/detectors/slouch_detector.py:253 | the calibrated distance is positive: the floor 0.001 at squared distance zero, the norm of the neck-to-nose vector otherwise |
| Scorer.LiveDistance | habitkicker/detectors/slouch_detector.py:254 | the live distance is the norm of the neck-to-nose vector, zero exactly when nose and neck coincide in the plane |
| Scorer.DistanceRatio | habitkicker/detectors/slouch_detector.py:255 | with a positive calibrated distance the ratio times it is the live distance, and below 1 exactly when the live distance is shorter; otherwise 1 |
| Scorer.DistancePercentage | habitkicker/detectors/slouch_detector.py:270 | the distance signal is in [0, 100] for a non-negative ratio, zero exactly when the ratio is at least 1, and otherwise the shortfall in percent |
| Scorer.ReferenceDistance | habitkicker/detectors/slouch_detector.py:264-266 | the reference distance is non-negative, and zero exactly when the nose is level with the midpoint of the shoulder line |
| Scorer.ShoulderPercentage | habitkicker/detectors/slouch_detector.py:209-212 | the shoulder signal is 0 for a zero reference distance and otherwise the drop as a percentage of it, with the sign of the drop |
| Scorer.CalculateSlouch | habitkicker/detectors/slouch_detector.py:205-282 | slouching exactly when the percentage exceeds the threshold; the percentage is the weighted shoulder signal plus between 0 and 76 |
| Scorer.DistanceTermBounds | habitkicker/detectors/slouch_detector.py:253-270 | the distance signal lies in [0, 100] and is 0 exactly when the live distance is at least the calibrated one |
| Scorer.CoincidentPointsAreFloored | habitkicker/detectors/slouch_detector.py:253 | a baseline whose nose and neck coincide in the plane gets the floored distance 0.001, so nothing divides by zero |
| Scorer.Drawn | habitkicker/detectors/slouch_detector.py:197-203 | a call that reaches the drawing returns the cached decision and leaves the detector alone, except that a false decision under a zero threshold makes the drawing raise (at line 309 or line 311) |
| Scorer.CheckSlouching | habitkicker/detectors/slouch_detector.py:178-203 | uncalibrated or pose-less calls answer false and change nothing; a due call with nothing extracted or a falsy baseline answers false and leaves the cache alone; within the interval the cached decision is drawn with nothing changed; a recomputation stamps only the time, the decision and the percentage, and the decision is the percentage above the threshold; KeyError exactly for a truthy baseline lacking a scored key; the drawing raises only under a zero threshold with a false decision |
| Scorer.RecomputeStampsCache | habitkicker/detectors/slouch_detector.py:186-203 | a due recomputation stores the fresh decision, percentage and time, and returns the decision unless it is false under a zero threshold, which makes the drawing raise |
| Scorer.ThrottledCheckIsCached | habitkicker/detectors/slouch_detector.py:186-203 | a check less than one interval after a recomputation ends exactly as the recomputation did, with the cached decision or the same drawing failure, whatever pose it gets |
| Scorer.CompleteBaselineNeverRaises | habitkicker/detectors/slouch_detector.py:190-203 | a complete baseline never makes the check raise KeyError, and with a non-zero threshold the check never raises |
| ScoringFacts.SameVectorHasNoAngle | habitkicker/detectors/slouch_detector.py:229-237 | a vector compared with itself gives angle signal 0 |
| ScoringFacts.IdenticalPostureScoresZero | habitkicker/detectors/slouch_detector.py:205-282 | a live posture identical to a baseline whose nose and neck are apart scores 0, and is slouching only for a negative threshold |
| ScoringFacts.SameSnapshotHasNoDrop | habitkicker/detectors/slouch_detector.py:209-212 | comparing a snapshot with itself gives shoulder signal 0 |
| ScoringFacts.CoincidentHasNoAngle | habitkicker/detectors/slouch_detector.py:229-237 | nose and neck coinciding leave no vector, so the angle signal is 0 |
| ScoringFacts.CoincidentHasFullDistanceSignal | habitkicker/detectors/slouch_detector.py:253-270 | nose and neck coinciding in baseline and live posture give a full distance signal of 100 |
| ScoringFacts.IdenticalDegeneratePostureScoresForty | habitkicker/detectors/slouch_detector.py:205-282 | a live posture identical to a baseline whose nose and neck coincide scores 40 |
| ScoringFacts.ThresholdIsStrict | habitkicker/detectors/slouch_detector.py:280 | a percentage equal to the threshold is not slouching, and it is slouching against any lower threshold |
| ScoringFacts.WorkedExample | habitkicker/detectors/slouch_detector.py:205-282 | shoulders 0.05 lower against a reference distance of 0.2 give shoulder signal 25, composite 20, and slouching at threshold 15 |
| ScoringFacts.ExampleShoulderSignal | habitkicker/detectors/slouch_detector.py:209-268 | in the example the shoulder signal is 25 |
| ScoringFacts.ExampleDistanceSignal | habitkicker/detectors/slouch_detector.py:239-270 | in the example the nose-neck distance grows from 0.2 to 0.25, so the distance signal is 0 |
| ScoringFacts.ExampleAngleSignal | habitkicker/detectors/slouch_detector.py:214-237 | in the example both neck-nose vectors point straight up, so the angle signal is 0 |

## Left out

- Drawing (`_draw_slouch_alert`, `_draw_slouch_percentage`, slouch_detector.py:291-322) and the `frame` argument: they write text onto the frame. The only way they can fail, dividing by a zero threshold at line 309 and the conversion to int at line 311 that follows it, is modelled as one outcome; which exception type is raised is not modelled.
- Console messages (`print`): they produce log output only.
- Pickle serialisation: the file is an abstract value and a write's outcome is a parameter. A stored object that is neither None nor a mapping of keys to points is not modelled.
- IEEE floating point: coordinates and scores are reals. The numerics of `np.sqrt` and `np.arccos` are reduced to the facts listed above.
- `time.time()`: it becomes the `now` parameter.
- Threading, the camera loop and its `is_calibrating` handoff (`habitkicker/camera.py`), the GUI (`habitkicker/gui/gui.py`), the MediaPipe wrapper and the landmark constants file: these are I/O, concurrency and UI around the core.
- Landmarks.Extract: a landmark list shorter than 13 points would raise IndexError in the source. The model requires at least 13 points, which the pose model always supplies.
- Averaging.Mean: a sample with a key that the first sample lacks would raise KeyError in the source. Samples only come from extraction, so they all have the same six keys (`Calibration.UpdateKeepsSamplesComplete`).
- Scorer.AngleDifference: the angle is stated only by its range and its zero cases, because arc cosine is known only through the facts above.
- Scorer.CalculateSlouch: the percentage is stated by its decision and its bounds, not by a closed value. The other signals are stated by their own members.

=== FILE: averaging.dfy ===
/** Reduction of calibration samples to a baseline: the per-key,
    per-coordinate arithmetic mean.

    The keys of the baseline are those of the first sample. A sample that
    lacks a key contributes nothing to that key's sum but still counts in the
    divisor, as in the source's summing loop.
 */
module Averaging {
  import opened Numerics
  import opened Landmarks

  datatype Axis = X | Y | Z

  function Coord(p: Point, a: Axis): real {
    match a
    case X => p.x
    case Y => p.y
    case Z => p.z
  }

  /** What one sample adds to the sum for key `k` on axis `a`. */
  function Contribution(s: Snapshot, k: Key, a: Axis): real {
    if k in s then Coord(s[k], a) else 0.0
  }

  /** Sum over the samples, accumulated from the first to the last. */
  function SumCoord(samples: seq<Snapshot>, k: Key, a: Axis): real
    decreases |samples|
  {
    if |samples| == 0 then 0.0
    else SumCoord(samples[..|samples| - 1], k, a) + Contribution(samples[|samples| - 1], k, a)
  }

  function MeanCoord(samples: seq<Snapshot>, k: Key, a: Axis): real
    requires |samples| > 0
  {
    SumCoord(samples, k, a) / (|samples| as real)
  }

  /** The baseline computed from a non-empty sample list. */
  function Mean(samples: seq<Snapshot>): (r: Snapshot)
    requires |samples| > 0
    ensures r.Keys == samples[0].Keys
  {
    map k | k in samples[0].Keys ::
      Point(MeanCoord(samples, k, X), MeanCoord(samples, k, Y), MeanCoord(samples, k, Z))
  }

  /** Every sample holds key `k`. */
  ghost predicate AllHave(samples: seq<Snapshot>, k: Key) {
    forall i :: 0 <= i < |samples| ==> k in samples[i]
  }

  /** The mean of complete samples is complete. */
  lemma MeanOfCompleteIsComplete(samples: seq<Snapshot>)
    requires |samples| > 0 && AllComplete(samples)
    ensures IsComplete(Mean(samples))
  {
  }

  /** The smallest coordinate among the samples. */
  function MinCoord(samples: seq<Snapshot>, k: Key, a: Axis): (r: real)
    requires |samples| > 0 && AllHave(samples, k)
    ensures forall i :: 0 <= i < |samples| ==> r <= Coord(samples[i][k], a)
    ensures exists i :: 0 <= i < |samples| && r == Coord(samples[i][k], a)
    decreases |samples|
  {
    var last := Coord(samples[|samples| - 1][k], a);
    if |samples| == 1 then last
    else
      var rest := MinCoord(samples[..|samples| - 1], k, a);
      if rest <= last then rest else last
  }

  /** The largest coordinate among the samples. */
  function MaxCoord(samples: seq<Snapshot>, k: Key, a: Axis): (r: real)
    requires |samples| > 0 && AllHave(samples, k)
    ensures forall i :: 0 <= i < |samples| ==> Coord(samples[i][k], a) <= r
    ensures exists i :: 0 <= i < |samples| && r == Coord(samples[i][k], a)
    decreases |samples|
  {
    var last := Coord(samples[|samples| - 1][k], a);
    if |samples| == 1 then last
    else
      var rest := MaxCoord(samples[..|samples| - 1], k, a);
      if rest >= last then rest else last
  }

  /** n copies of c added up, kept apart from real multiplication so that
      the bound proofs below stay linear. */
  ghost function Repeated(n: nat, c: real): real {
    if n == 0 then 0.0 else Repeated(n - 1, c) + c
  }

  lemma {:induction false} RepeatedIsProduct(n: nat, c: real)
    ensures Repeated(n, c) == (n as real) * c
  {
    if n > 0 {
      RepeatedIsProduct(n - 1, c);
      Distribute((n - 1) as real, 1.0, c);
    }
  }

  /** If every sample's coordinate lies in [lo, hi], the sum lies between n
      copies of lo and n copies of hi. */
  lemma {:induction false} SumWithinBounds(samples: seq<Snapshot>, k: Key, a: Axis, lo: real, hi: real)
    requires AllHave(samples, k)
    requires forall i :: 0 <= i < |samples| ==> lo <= Coord(samples[i][k], a) <= hi
    ensures Repeated(|samples|, lo) <= SumCoord(samples, k, a) <= Repeated(|samples|, hi)
    decreases |samples|
  {
    if |samples| > 0 {
      var n := |samples|;
      var prefix := samples[..n - 1];
      assert forall i :: 0 <= i < |prefix| ==> prefix[i] == samples[i];
      SumWithinBounds(prefix, k, a, lo, hi);
      assert Contribution(samples[n - 1], k, a) == Coord(samples[n - 1][k], a);
    }
  }

  /** The mean of values in [lo, hi] lies in [lo, hi]. */
  lemma MeanWithinBounds(samples: seq<Snapshot>, k: Key, a: Axis, lo: real, hi: real)
    requires |samples| > 0 && AllHave(samples, k)
    requires forall i :: 0 <= i < |samples| ==> lo <= Coord(samples[i][k], a) <= hi
    ensures lo <= MeanCoord(samples, k, a) <= hi
  {
    SumWithinBounds(samples, k, a, lo, hi);
    RepeatedIsProduct(|samples|, lo);
    RepeatedIsProduct(|samples|, hi);
    QuotientWithinBounds(SumCoord(samples, k, a), |samples| as real, lo, hi);
  }

  /** Every baseline coordinate lies between the smallest and the largest
      value of that coordinate across the samples. */
  lemma MeanWithinRange(samples: seq<Snapshot>, k: Key, a: Axis)
    requires |samples| > 0 && AllHave(samples, k)
    ensures MinCoord(samples, k, a) <= MeanCoord(samples, k, a) <= MaxCoord(samples, k, a)
  {
    MeanWithinBounds(samples, k, a, MinCoord(samples, k, a), MaxCoord(samples, k, a));
  }

  lemma MeanCoordOfCopies(samples: seq<Snapshot>, s: Snapshot, k: Key, a: Axis)
    requires |samples| > 0 && k in s
    requires forall i :: 0 <= i < |samples| ==> samples[i] == s
    ensures MeanCoord(samples, k, a) == Coord(s[k], a)
  {
    MeanWithinBounds(samples, k, a, Coord(s[k], a), Coord(s[k], a));
  }

  /** Averaging n copies of one snapshot gives that snapshot back; in
      particular a single sample is its own baseline. */
  lemma MeanOfCopies(samples: seq<Snapshot>, s: Snapshot)
    requires |samples| > 0
    requires forall i :: 0 <= i < |samples| ==> samples[i] == s
    ensures Mean(samples) == s
  {
    forall k | k in s
      ensures Mean(samples)[k] == s[k]
    {
      MeanCoordOfCopies(samples, s, k, X);
      MeanCoordOfCopies(samples, s, k, Y);
      MeanCoordOfCopies(samples, s, k, Z);
    }
  }

  /** The sum over a concatenation is the sum of the two sums. */
  lemma {:induction false} SumOfConcatenation(p: seq<Snapshot>, q: seq<Snapshot>, k: Key, a: Axis)
    ensures SumCoord(p + q, k, a) == SumCoord(p, k, a) + SumCoord(q, k, a)
    decreases |q|
  {
    if |q| == 0 {
      assert p + q == p;
    } else {
      var q' := q[..|q| - 1];
      assert (p + q)[..|p + q| - 1] == p + q';
      SumOfConcatenation(p, q', k, a);
    }
  }

  /** Taking one sample out of the middle removes its contribution. */
  lemma SumWithoutOne(t: seq<Snapshot>, j: nat, k: Key, a: Axis)
    requires j < |t|
    ensures SumCoord(t, k, a) == SumCoord(t[..j] + t[j + 1..], k, a) + Contribution(t[j], k, a)
  {
    var t1, t2 := t[..j], t[j + 1..];
    assert t == (t1 + [t[j]]) + t2;
    SumOfConcatenation(t1 + [t[j]], t2, k, a);
    SumOfConcatenation(t1, [t[j]], k, a);
    SumOfConcatenation(t1, t2, k, a);
    assert [t[j]][..0] == [];
  }

  lemma MultisetWithoutOne(t: seq<Snapshot>, j: nat)
    requires j < |t|
    ensures multiset(t[..j] + t[j + 1..]) == multiset(t) - multiset{t[j]}
  {
    assert t == t[..j] + [t[j]] + t[j + 1..];
  }

  /** The last sample of s sits somewhere in its permutation t, and what
      remains of both sides is again a permutation. */
  lemma MatchLast(s: seq<Snapshot>, t: seq<Snapshot>) returns (j: nat)
    requires |s| > 0 && multiset(s) == multiset(t)
    ensures j < |t| && t[j] == s[|s| - 1]
    ensures multiset(s[..|s| - 1]) == multiset(t[..j] + t[j + 1..])
  {
    var n := |s|;
    assert s[n - 1] in multiset(t);
    j :| 0 <= j < |t| && t[j] == s[n - 1];
    MultisetWithoutOne(s, n - 1);
    MultisetWithoutOne(t, j);
    assert s[..n - 1] + s[n..] == s[..n - 1];
  }

  /** Sums do not depend on the order of the samples. */
  lemma {:induction false} SumIsOrderInsensitive(s: seq<Snapshot>, t: seq<Snapshot>, k: Key, a: Axis)
    requires multiset(s) == multiset(t)
    ensures SumCoord(s, k, a) == SumCoord(t, k, a)
    decreases |s|
  {
    if |s| > 0 {
      var j := MatchLast(s, t);
      SumIsOrderInsensitive(s[..|s| - 1], t[..j] + t[j + 1..], k, a);
      SumWithoutOne(t, j, k, a);
    } else {
      assert |t| == |multiset(t)|;
    }
  }

  /** Reordering complete samples does not change the baseline. */
  lemma MeanIsOrderInsensitive(s: seq<Snapshot>, t: seq<Snapshot>)
    requires |s| > 0 && AllComplete(s)
    requires multiset(s) == multiset(t)
    ensures |t| > 0 && Mean(s) == Mean(t)
  {
    assert |t| == |multiset(t)| == |multiset(s)| == |s|;
    assert t[0] in multiset(s);
    forall k | k in AllKeys
      ensures Mean(s)[k] == Mean(t)[k]
    {
      SumIsOrderInsensitive(s, t, k, X);
      SumIsOrderInsensitive(s, t, k, Y);
      SumIsOrderInsensitive(s, t, k, Z);
    }
  }

  /** The averaging loops of the calibration step: sum every sample into a
      per-key accumulator, then divide by the number of samples. */
  method Average(samples: seq<Snapshot>) returns (avg: Snapshot)
    requires |samples| > 0
    ensures avg == Mean(samples)
  {
    var keys := samples[0].Keys;
    var sums: map<Key, Point> := map k | k in keys :: Point(0.0, 0.0, 0.0);
    var i := 0;
    while i < |samples|
      invariant 0 <= i <= |samples|
      invariant sums.Keys == keys
      invariant forall k :: k in keys ==>
        sums[k] == Point(SumCoord(samples[..i], k, X), SumCoord(samples[..i], k, Y), SumCoord(samples[..i], k, Z))
    {
      var sample := samples[i];
      sums := map k | k in keys ::
        if k in sample
        then Point(sums[k].x + sample[k].x, sums[k].y + sample[k].y, sums[k].z + sample[k].z)
        else sums[k];
      assert samples[..i + 1][..i] == samples[..i];
      i := i + 1;
    }
    assert samples[..i] == samples;
    var n := |samples| as real;
    avg := map k | k in keys :: Point(sums[k].x / n, sums[k].y / n, sums[k].z / n);
  }
}

=== FILE: calibration.dfy ===
/** The calibration session: a countdown, a timed sampling window, and the
    completion step that averages the samples into the baseline and saves it.

    There is no explicit phase field. The phase is read off the state as the
    source does: a positive countdown means counting down; otherwise the
    time since `startTime` decides between sampling and the end of the
    window.
 */
module Calibration {
  import opened Landmarks
  import opened Averaging
  import opened State
  import opened Store

  /** What one calibration call leaves behind: the detector, the store file,
      and whether it reports the calibration as complete. */
  datatype Tick = Tick(detector: Detector, file: StoreFile, done: bool)

  datatype Completed = Completed(detector: Detector, file: StoreFile)

  predicate InCountdown(d: Detector) {
    d.countdown > 0.0
  }

  predicate InWindow(d: Detector, now: real) {
    !InCountdown(d) && now - d.startTime < CalibrationDuration
  }

  predicate AtWindowEnd(d: Detector, now: real) {
    !InCountdown(d) && now - d.startTime >= CalibrationDuration
  }

  /** start_calibration: a full reset into the countdown. Only the
      calibration fields change; the score cache and the store path stay. */
  function Start(d: Detector, now: real): (r: Detector)
    ensures !r.calibrated && r.baseline == None
    ensures r.countdown == CountdownSeconds && r.startTime == now && r.samples == []
    ensures InCountdown(r)
    ensures r.(calibrated := d.calibrated, baseline := d.baseline, countdown := d.countdown,
      startTime := d.startTime, samples := d.samples) == d
  {
    d.(calibrated := false, baseline := None, countdown := CountdownSeconds,
      startTime := now, samples := [])
  }

  /** _complete_calibration: with no samples nothing happens; otherwise the
      baseline becomes the mean of the samples, the detector is calibrated,
      and the baseline is saved. */
  function Complete(d: Detector, file: StoreFile, write: WriteOutcome): (r: Completed)
    ensures |d.samples| == 0 ==> r == Completed(d, file)
    ensures |d.samples| > 0 ==>
      && r.detector == d.(calibrated := true, baseline := Some(Mean(d.samples)))
      && r.file == Save(r.detector, file, write).file
    ensures |d.samples| > 0 && write == Written ==> r.file == Holds(Some(Mean(d.samples)))
  {
    if |d.samples| == 0 then Completed(d, file)
    else
      var d' := d.(baseline := Some(Mean(d.samples)), calibrated := true);
      Completed(d', Save(d', file, write).file)
  }

  /** The sample a pose yields, if it is present and has a landmark list. */
  function Sample(pose: Option<Pose>): (r: Snapshot)
    ensures |r| > 0 <==> pose.Some? && pose.value.PoseLandmarks?
    ensures |r| > 0 ==> IsComplete(r)
  {
    if pose.None? then map[]
    else
      ExtractAllOrNothing(pose.value);
      Extract(pose.value)
  }

  /** The countdown step. */
  function CountdownStep(d: Detector, file: StoreFile, now: real): (t: Tick)
    requires InCountdown(d)
    ensures !t.done && t.file == file
    ensures now - d.startTime >= d.countdown ==>
      t.detector == d.(countdown := 0.0, startTime := now, samples := [], lastSampleTime := now)
    ensures now - d.startTime < d.countdown ==> t.detector == d
  {
    var remaining := d.countdown - (now - d.startTime);
    if remaining <= 0.0 then
      Tick(d.(countdown := 0.0, startTime := now, samples := [], lastSampleTime := now), file, false)
    else
      Tick(d, file, false)
  }

  /** The step inside the sampling window. */
  function SamplingStep(d: Detector, file: StoreFile, pose: Option<Pose>, now: real): (t: Tick)
    requires InWindow(d, now)
    ensures !t.done && t.file == file
    ensures var due := now - d.lastSampleTime >= SampleInterval && pose.Some?;
      && (due ==> t.detector.lastSampleTime == now)
      && (!due ==> t.detector == d)
      && (t.detector.samples == d.samples || (due && t.detector.samples == d.samples + [Sample(pose)]))
      && (due && |Sample(pose)| > 0 ==> t.detector.samples == d.samples + [Sample(pose)])
      && (due && |Sample(pose)| == 0 ==> t.detector.samples == d.samples)
    ensures t.detector.(samples := d.samples, lastSampleTime := d.lastSampleTime) == d
  {
    if now - d.lastSampleTime >= SampleInterval && pose.Some? then
      var s := Sample(pose);
      var d' := d.(lastSampleTime := now);
      if |s| > 0 then Tick(d'.(samples := d.samples + [s]), file, false)
      else Tick(d', file, false)
    else
      Tick(d, file, false)
  }

  /** The step once the sampling window has run out. */
  function WindowEndStep(d: Detector, file: StoreFile, pose: Option<Pose>, now: real, write: WriteOutcome): (t: Tick)
    requires AtWindowEnd(d, now)
    ensures var forced := |d.samples| == 0 && |Sample(pose)| > 0;
      && t.done == (d.calibrated || |d.samples| > 0 || forced)
      && (!d.calibrated && t.done ==>
           && t.detector.calibrated
           && |t.detector.samples| > 0
           && t.detector.baseline == Some(Mean(t.detector.samples))
           && t.detector.samples == (if forced then [Sample(pose)] else d.samples))
      && (d.calibrated ==> t.file == file && t.detector.baseline == d.baseline && t.detector.calibrated)
      && (!t.done ==> t.file == file && t.detector == d.(startTime := now))
    ensures !d.calibrated && t.done ==>
      && t.detector == d.(samples := t.detector.samples, calibrated := true,
           baseline := Some(Mean(t.detector.samples)))
      && t.file == Save(t.detector, file, write).file
    ensures t.done ==> t.detector.startTime == d.startTime
    ensures d.calibrated ==>
      && t.detector == d.(samples := t.detector.samples)
      && t.detector.samples == (if |d.samples| == 0 && |Sample(pose)| > 0 then [Sample(pose)] else d.samples)
  {
    var s := if pose.Some? && |d.samples| == 0 then Sample(pose) else map[];
    var d1 := if |s| > 0 then d.(samples := d.samples + [s]) else d;
    if !d1.calibrated && |d1.samples| > 0 then
      var c := Complete(d1, file, write);
      Tick(c.detector, c.file, true)
    else if d1.calibrated then
      Tick(d1, file, true)
    else
      Tick(d1.(startTime := now), file, false)
  }

  /** update_calibration, once per frame. */
  function Update(d: Detector, file: StoreFile, pose: Option<Pose>, now: real, write: WriteOutcome): (t: Tick)
    ensures InCountdown(d) ==>
      && !t.done && t.file == file
      && t.detector.calibrated == d.calibrated && t.detector.baseline == d.baseline
      && (t.detector.samples == d.samples || t.detector.samples == [])
      && t.detector.(countdown := d.countdown, startTime := d.startTime, samples := d.samples,
           lastSampleTime := d.lastSampleTime) == d
    ensures InWindow(d, now) ==>
      && !t.done && t.file == file
      && t.detector.calibrated == d.calibrated && t.detector.baseline == d.baseline
      && |d.samples| <= |t.detector.samples| <= |d.samples| + 1
      && (t.detector.samples == d.samples || t.detector.samples == d.samples + [Sample(pose)])
      && (now - d.lastSampleTime < SampleInterval || |Sample(pose)| == 0 ==> t.detector.samples == d.samples)
      && t.detector.(samples := d.samples, lastSampleTime := d.lastSampleTime) == d
    ensures t.done ==> AtWindowEnd(d, now) && t.detector.calibrated
    ensures !d.calibrated && t.detector.calibrated ==>
      t.done && |t.detector.samples| > 0 && t.detector.baseline == Some(Mean(t.detector.samples))
    ensures !d.calibrated && t.done ==>
      && t.detector == d.(samples := t.detector.samples, calibrated := true,
           baseline := Some(Mean(t.detector.samples)))
      && t.file == Save(t.detector, file, write).file
  {
    if InCountdown(d) then CountdownStep(d, file, now)
    else if now - d.startTime < CalibrationDuration then SamplingStep(d, file, pose, now)
    else WindowEndStep(d, file, pose, now, write)
  }

  /** Once the countdown has elapsed, the session is in its sampling window
      with no samples, timed from the call that ended the countdown. */
  lemma CountdownExpiry(d: Detector, file: StoreFile, pose: Option<Pose>, now: real, write: WriteOutcome)
    requires InCountdown(d) && now - d.startTime >= d.countdown
    ensures var e := Update(d, file, pose, now, write).detector;
      && !InCountdown(e) && e.samples == [] && e.startTime == now && e.lastSampleTime == now
      && InWindow(e, now)
  {
  }

  /** A session that is complete stays complete: a later call at the window's
      end reports completion again and leaves the baseline, the file and,
      when any were collected, the samples as they were. */
  lemma {:induction false} CompletionIsIdempotent(d: Detector, file: StoreFile, pose: Option<Pose>, now: real, write: WriteOutcome)
    requires d.calibrated && AtWindowEnd(d, now)
    ensures var t := Update(d, file, pose, now, write);
      && t.done && t.file == file && t.detector.baseline == d.baseline && t.detector.calibrated
      && (|d.samples| > 0 ==> t.detector == d)
  {
    var t := WindowEndStep(d, file, pose, now, write);
    assert t.done && t.file == file;
  }

  /** The call that completes calibration is followed, at any later time, by
      calls that report completion and change nothing. */
  lemma {:induction false} CompletedStaysComplete(d: Detector, file: StoreFile, pose: Option<Pose>, now: real,
      write: WriteOutcome, pose2: Option<Pose>, now2: real, write2: WriteOutcome)
    requires !d.calibrated && now <= now2
    requires Update(d, file, pose, now, write).done
    ensures var t := Update(d, file, pose, now, write);
      var t2 := Update(t.detector, t.file, pose2, now2, write2);
      t2 == t
  {
    var t := Update(d, file, pose, now, write);
    assert AtWindowEnd(d, now);
    assert t.detector.startTime == d.startTime && t.detector.countdown == d.countdown;
    assert AtWindowEnd(t.detector, now2);
    CompletionIsIdempotent(t.detector, t.file, pose2, now2, write2);
  }

  /** Sample spacing: after a call that took a sample, no call less than one
      sample interval later adds another. */
  lemma {:induction false} SamplesAreSpaced(d: Detector, file: StoreFile, pose: Option<Pose>, now: real, write: WriteOutcome,
      pose2: Option<Pose>, now2: real, write2: WriteOutcome)
    requires !InCountdown(d)
    requires now <= now2 < now + SampleInterval
    requires |Update(d, file, pose, now, write).detector.samples| > |d.samples|
    ensures var t := Update(d, file, pose, now, write);
      |Update(t.detector, t.file, pose2, now2, write2).detector.samples| == |t.detector.samples|
  {
    var t := Update(d, file, pose, now, write);
    if InWindow(d, now) {
      assert t.detector.lastSampleTime == now;
      assert !InCountdown(t.detector);
    } else {
      assert t.done;
    }
  }

  /** Calls keep every collected sample a complete snapshot. */
  lemma UpdateKeepsSamplesComplete(d: Detector, file: StoreFile, pose: Option<Pose>, now: real, write: WriteOutcome)
    requires SamplesComplete(d)
    ensures SamplesComplete(Update(d, file, pose, now, write).detector)
  {
  }

  /** A calibration this session completes yields a complete baseline. */
  lemma {:induction false} CompletedBaselineIsComplete(d: Detector, file: StoreFile, pose: Option<Pose>, now: real, write: WriteOutcome)
    requires SamplesComplete(d) && !d.calibrated
    requires Update(d, file, pose, now, write).detector.calibrated
    ensures var b := Update(d, file, pose, now, write).detector.baseline;
      b.Some? && IsComplete(b.value)
  {
    var e := Update(d, file, pose, now, write).detector;
    UpdateKeepsSamplesComplete(d, file, pose, now, write);
    MeanOfCompleteIsComplete(e.samples);
  }

  /** The retry path: a window that ends with no samples and no usable pose
      restarts itself and leaves the detector uncalibrated. */
  lemma RetryWithoutSamples(d: Detector, file: StoreFile, pose: Option<Pose>, now: real, write: WriteOutcome)
    requires AtWindowEnd(d, now) && !d.calibrated && d.samples == []
    requires pose.None? || pose.value.NoLandmarkList?
    ensures var t := Update(d, file, pose, now, write);
      && !t.done && !t.detector.calibrated && t.detector.samples == []
      && t.detector.startTime == now && t.file == file
      && InWindow(t.detector, now)
  {
  }

  /** One frame as seen by the calibration loop. */
  datatype Frame = Frame(pose: Option<Pose>, now: real, write: WriteOutcome)

  /** Feeds frames to update_calibration in order. */
  function Run(d: Detector, file: StoreFile, frames: seq<Frame>): (t: Tick)
    decreases |frames|
  {
    if |frames| == 0 then Tick(d, file, false)
    else
      var t := Update(d, file, frames[0].pose, frames[0].now, frames[0].write);
      if |frames| == 1 then t else Run(t.detector, t.file, frames[1..])
  }

  /** After a start, frames that all arrive before the countdown runs out
      never add a sample and never complete, whatever poses they carry. */
  lemma {:induction false} CountdownRunNeverSamples(d: Detector, file: StoreFile, t0: real, frames: seq<Frame>)
    requires forall i :: 0 <= i < |frames| ==> frames[i].now - t0 < CountdownSeconds
    ensures var t := Run(Start(d, t0), file, frames);
      && !t.done && t.detector == Start(d, t0) && t.file == file
    decreases |frames|
  {
    if |frames| > 0 {
      var s := Start(d, t0);
      var t := Update(s, file, frames[0].pose, frames[0].now, frames[0].write);
      assert t == Tick(s, file, false);
      if |frames| > 1 {
        assert forall i :: 0 <= i < |frames[1..]| ==> frames[1..][i].now == frames[i + 1].now;
        CountdownRunNeverSamples(d, file, t0, frames[1..]);
      }
    }
  }
}

=== FILE: landmarks.dfy ===
/** Landmark snapshots and their extraction from a pose-landmark structure.

    A snapshot maps six named anatomical points to normalised (x, y, z)
    coordinates. The neck is never read from the pose: it is the midpoint of
    the two shoulders.
 */
module Landmarks {

  datatype Point = Point(x: real, y: real, z: real)

  /** The six keys of a posture snapshot. */
  datatype Key = LeftShoulder | RightShoulder | Neck | Nose | LeftEar | RightEar

  /** A snapshot as the detector stores it: a mapping from keys to points. */
  type Snapshot = map<Key, Point>

  const AllKeys: set<Key> := {LeftShoulder, RightShoulder, Neck, Nose, LeftEar, RightEar}

  /** The keys the slouch score reads; the ears are extracted but never scored. */
  const ScoredKeys: set<Key> := {LeftShoulder, RightShoulder, Neck, Nose}

  predicate IsComplete(s: Snapshot) {
    s.Keys == AllKeys
  }

  /** Every snapshot of the list is complete. */
  ghost predicate AllComplete(snapshots: seq<Snapshot>) {
    forall i :: 0 <= i < |snapshots| ==> IsComplete(snapshots[i])
  }

  /** Indices of the points used, in the pose model's fixed numbering. */
  const NoseIndex: nat := 0
  const LeftEarIndex: nat := 7
  const RightEarIndex: nat := 8
  const LeftShoulderIndex: nat := 11
  const RightShoulderIndex: nat := 12

  /** The shortest landmark list that holds every index above. */
  const MinLandmarkCount: nat := 13

  type LandmarkList = l: seq<Point> | |l| >= MinLandmarkCount
    witness seq(MinLandmarkCount, _ => Point(0.0, 0.0, 0.0))

  /** A non-null pose result: either it exposes a `landmark` list, or it does not. */
  datatype Pose = PoseLandmarks(landmark: LandmarkList) | NoLandmarkList

  function Midpoint(p: Point, q: Point): (r: Point)
    ensures r.x - p.x == q.x - r.x
    ensures r.y - p.y == q.y - r.y
    ensures r.z - p.z == q.z - r.z
  {
    Point((p.x + q.x) / 2.0, (p.y + q.y) / 2.0, (p.z + q.z) / 2.0)
  }

  /** Projects a pose onto the six posture keys; an empty snapshot when the
      pose has no landmark list. */
  function Extract(pose: Pose): (r: Snapshot)
    ensures pose.NoLandmarkList? <==> r == map[]
    ensures pose.PoseLandmarks? <==> IsComplete(r)
    ensures pose.PoseLandmarks? ==>
      && r[LeftShoulder] == pose.landmark[LeftShoulderIndex]
      && r[RightShoulder] == pose.landmark[RightShoulderIndex]
      && r[Nose] == pose.landmark[NoseIndex]
      && r[LeftEar] == pose.landmark[LeftEarIndex]
      && r[RightEar] == pose.landmark[RightEarIndex]
      && r[Neck] == Midpoint(r[LeftShoulder], r[RightShoulder])
  {
    match pose
    case NoLandmarkList => map[]
    case PoseLandmarks(l) =>
      var r := map[LeftShoulder := l[LeftShoulderIndex],
          RightShoulder := l[RightShoulderIndex],
          Neck := Midpoint(l[LeftShoulderIndex], l[RightShoulderIndex]),
          Nose := l[NoseIndex],
          LeftEar := l[LeftEarIndex],
          RightEar := l[RightEarIndex]];
      assert Nose in r;
      r
  }

  /** A non-empty extraction is a complete one: partial snapshots never arise. */
  lemma ExtractAllOrNothing(pose: Pose)
    ensures |Extract(pose)| == 0 || IsComplete(Extract(pose))
    ensures |Extract(pose)| > 0 <==> pose.PoseLandmarks?
  {
    if pose.PoseLandmarks? {
      assert Nose in Extract(pose);
    }
  }

  /** The derived neck lies between the two shoulders on every axis. */
  lemma NeckBetweenShoulders(pose: Pose)
    requires pose.PoseLandmarks?
    ensures var s := Extract(pose);
      && (s[LeftShoulder].x <= s[Neck].x <= s[RightShoulder].x || s[RightShoulder].x <= s[Neck].x <= s[LeftShoulder].x)
      && (s[LeftShoulder].y <= s[Neck].y <= s[RightShoulder].y || s[RightShoulder].y <= s[Neck].y <= s[LeftShoulder].y)
      && (s[LeftShoulder].z <= s[Neck].z <= s[RightShoulder].z || s[RightShoulder].z <= s[Neck].z <= s[LeftShoulder].z)
  {
  }
}

=== FILE: numerics.dfy ===
/** Real-number primitives the slouch scorer relies on.

    The scorer calls numpy's square root and arc cosine. Their numerics are
    not modelled: both are taken as function values bundled in `Math`, and the
    few facts the scorer needs about them are stated by `Axioms`. Every member
    that uses them requires `Axioms(m)`.

    The module also holds the small algebraic facts about real products that
    the scorer's proofs use, each stated over plain variables.
 */
module Numerics {

  /** numpy's double-precision value of pi, used to convert radians to degrees. */
  const Pi: real := 3.141592653589793

  /** The two numeric primitives, np.sqrt and np.arccos. */
  datatype Math = Math(sqrt: real -> real, arccos: real -> real)

  /** The square root and the arc cosine under names of their own. The facts
      of `Axioms` are stated over these names, so they enter a proof only
      through the lemmas below, which name the argument they are wanted for. */
  ghost function Root(m: Math, x: real): real {
    m.sqrt(x)
  }

  ghost function RootProduct(m: Math, x: real): real {
    m.sqrt(x) * m.sqrt(x)
  }

  ghost function Acos(m: Math, x: real): real {
    m.arccos(x)
  }

  /** What the model assumes of the primitives: the square root of a
      non-negative number is non-negative, positive for a positive number,
      zero at zero, and squares back to its argument; the arc cosine maps
      [-1, 1] into [0, pi] and sends 1 to 0. */
  ghost predicate Axioms(m: Math) {
    && (forall x :: 0.0 <= x ==> 0.0 <= Root(m, x))
    && (forall x :: 0.0 < x ==> 0.0 < Root(m, x))
    && m.sqrt(0.0) == 0.0
    && (forall x :: 0.0 <= x ==> RootProduct(m, x) == x)
    && (forall x :: -1.0 <= x <= 1.0 ==> 0.0 <= Acos(m, x) <= Pi)
    && m.arccos(1.0) == 0.0
  }

  lemma RootSign(m: Math, x: real)
    requires Axioms(m)
    ensures 0.0 <= x ==> 0.0 <= m.sqrt(x)
    ensures 0.0 < x ==> 0.0 < m.sqrt(x)
  {
    assert Root(m, x) == m.sqrt(x);
  }

  lemma RootSquared(m: Math, x: real)
    requires Axioms(m) && 0.0 <= x
    ensures m.sqrt(x) * m.sqrt(x) == x
  {
    assert RootProduct(m, x) == x;
  }

  lemma ArccosRange(m: Math, x: real)
    requires Axioms(m) && -1.0 <= x <= 1.0
    ensures 0.0 <= m.arccos(x) <= Pi
  {
    assert Acos(m, x) == m.arccos(x);
  }

  /** np.clip on a scalar: the value pulled into [lo, hi]. */
  function Clip(x: real, lo: real, hi: real): (r: real)
    requires lo <= hi
    ensures lo <= r <= hi
    ensures lo <= x <= hi ==> r == x
    ensures x < lo ==> r == lo
    ensures hi < x ==> r == hi
  {
    if x < lo then lo else if x > hi then hi else x
  }

  /** Python's abs on a real. */
  function Abs(x: real): (r: real)
    ensures 0.0 <= r
    ensures r == x || r == -x
  {
    if x < 0.0 then -x else x
  }

  // Algebra of real products, one step per lemma.

  lemma SquareNonNegative(a: real)
    ensures 0.0 <= a * a
  {
  }

  lemma SquarePositive(a: real)
    requires a != 0.0
    ensures 0.0 < a * a
  {
  }

  lemma SquareZeroOrPositive(a: real)
    ensures a == 0.0 || 0.0 < a * a
  {
    if a != 0.0 {
      SquarePositive(a);
    }
  }

  /** A sum of two squares is non-negative, and positive unless both are zero. */
  lemma SumOfSquaresSign(a: real, b: real)
    ensures 0.0 <= a * a + b * b
    ensures a != 0.0 || b != 0.0 ==> 0.0 < a * a + b * b
  {
    SquareNonNegative(a);
    SquareNonNegative(b);
    if a != 0.0 {
      SquarePositive(a);
    } else if b != 0.0 {
      SquarePositive(b);
    }
  }

  lemma Distribute(p: real, q: real, k: real)
    ensures (p + q) * k == p * k + q * k
  {
  }

  lemma CancelToOne(s: real, k: real)
    requires s * k == k && k != 0.0
    ensures s == 1.0
  {
    assert (s - 1.0) * k == s * k - k;
  }

  lemma DivideThenMultiply(x: real, n: real)
    requires n != 0.0
    ensures (x / n) * n == x
  {
  }

  lemma SquareOfProduct(a: real, n: real, x: real)
    requires a * n == x
    ensures (a * a) * (n * n) == x * x
  {
    assert (a * a) * (n * n) == (a * n) * (a * n);
  }

  lemma UnitSumOfSquares(pa: real, pb: real, k: real, xx: real, yy: real)
    requires pa * k == xx && pb * k == yy && k == xx + yy && k > 0.0
    ensures pa + pb == 1.0
  {
    Distribute(pa, pb, k);
    CancelToOne(pa + pb, k);
  }

  /** A non-zero plane vector divided by its length has unit squared length. */
  lemma NormalizedIsUnit(x: real, y: real, n: real)
    requires x != 0.0 || y != 0.0
    requires 0.0 < n && n * n == x * x + y * y
    ensures (x / n) * (x / n) + (y / n) * (y / n) == 1.0
  {
    var a, b := x / n, y / n;
    DivideThenMultiply(x, n);
    DivideThenMultiply(y, n);
    SquareOfProduct(a, n, x);
    SquareOfProduct(b, n, y);
    SumOfSquaresSign(x, y);
    UnitSumOfSquares(a * a, b * b, n * n, x * x, y * y);
  }

  /** The non-negative number whose square is r * r, for r > 0, is r. */
  lemma NonNegativeRootIsUnique(s: real, r: real)
    requires 0.0 <= s && 0.0 < r && s * s == r * r
    ensures s == r
  {
    assert (s - r) * (s + r) == s * s - r * r;
    assert 0.0 < s + r;
  }

  /** A quotient with a positive divisor is non-negative for a non-negative
      dividend, and below one exactly when the dividend is below the divisor. */
  lemma QuotientBelowOne(live: real, cal: real)
    requires 0.0 < cal && 0.0 <= live
    ensures 0.0 <= live / cal
    ensures live / cal < 1.0 <==> live < cal
  {
    assert (live / cal) * cal == live;
  }

  lemma QuotientWithinBounds(s: real, n: real, lo: real, hi: real)
    requires 0.0 < n && n * lo <= s <= n * hi
    ensures lo <= s / n <= hi
  {
    assert (s / n) * n == s;
  }

  lemma SelfQuotient(p: real)
    requires 0.0 < p
    ensures p / p == 1.0
  {
  }

  /** An angle in [0, pi] radians is in [0, 180] degrees. */
  lemma DegreesWithinHalfTurn(a: real)
    requires 0.0 <= a <= Pi
    ensures 0.0 <= a * (180.0 / Pi) <= 180.0
  {
  }
}

=== FILE: scorer.dfy ===
/** The slouch scorer: three weighted signals comparing a live snapshot
    with the baseline, and the throttled check that caches its result.

    Only the x and y coordinates take part in the score.
 */
module Scorer {
  import opened Numerics
  import opened Landmarks
  import opened State

  /** A plane vector: the x and y parts of a difference of two points. */
  datatype Vec2 = Vec2(x: real, y: real)

  const Zero: Vec2 := Vec2(0.0, 0.0)

  /** The weights of the shoulder, angle and distance signals. */
  const ShoulderFactor: real := 0.8
  const AngleFactor: real := 0.1
  const DistanceFactor: real := 0.4

  /** Stand-in for a calibrated nose-neck distance of zero. */
  const DistanceFloor: real := 0.001

  /** The plane vector from the neck to the nose. */
  function NeckToNose(s: Snapshot): Vec2
    requires Nose in s && Neck in s
  {
    Vec2(s[Nose].x - s[Neck].x, s[Nose].y - s[Neck].y)
  }

  /** np.linalg.norm of a plane vector: the non-negative number whose square
      is the sum of the squares of its parts. */
  function Norm(m: Math, v: Vec2): (r: real)
    requires Axioms(m)
    ensures 0.0 <= r
    ensures 0.0 < r <==> v != Zero
    ensures r * r == v.x * v.x + v.y * v.y
  {
    LengthSign(m, v.x, v.y);
    m.sqrt(v.x * v.x + v.y * v.y)
  }

  lemma LengthSign(m: Math, x: real, y: real)
    requires Axioms(m)
    ensures 0.0 <= m.sqrt(x * x + y * y)
    ensures 0.0 < m.sqrt(x * x + y * y) <==> x != 0.0 || y != 0.0
    ensures m.sqrt(x * x + y * y) * m.sqrt(x * x + y * y) == x * x + y * y
  {
    assert Root(m, x * x + y * y) == m.sqrt(x * x + y * y);
    assert RootProduct(m, x * x + y * y) == x * x + y * y;
    if x != 0.0 || y != 0.0 {
      assert 0.0 < x * x + y * y;
    } else {
      assert x * x + y * y == 0.0;
    }
  }

  /** The plane vector from q to p. */
  function Between(p: Point, q: Point): Vec2 {
    Vec2(p.x - q.x, p.y - q.y)
  }

  /** _squared_distance on the x and y parts of two points. */
  function SquaredDistance(p: Point, q: Point): (r: real)
    ensures 0.0 <= r
    ensures p.x == q.x && p.y == q.y ==> r == 0.0
  {
    var v := Between(p, q);
    SumOfSquaresSign(v.x, v.y);
    v.x * v.x + v.y * v.y
  }

  /** The root of the squared distance is the length of the difference. */
  lemma {:induction false} DistanceIsNorm(m: Math, p: Point, q: Point)
    requires Axioms(m)
    ensures m.sqrt(SquaredDistance(p, q)) == Norm(m, Between(p, q))
  {
    var sq := SquaredDistance(p, q);
    var root, norm := m.sqrt(sq), Norm(m, Between(p, q));
    SquaredDistanceOfDifference(p, q);
    RootSquared(m, sq);
    RootSign(m, sq);
    if 0.0 < norm {
      NonNegativeRootIsUnique(root, norm);
    } else {
      SquareZeroOrPositive(root);
    }
  }

  lemma SquaredDistanceOfDifference(p: Point, q: Point)
    ensures SquaredDistance(p, q)
      == Between(p, q).x * Between(p, q).x + Between(p, q).y * Between(p, q).y
  {
  }

  /** Two points at squared distance zero agree in x and y. */
  lemma ZeroSquaredDistance(m: Math, p: Point, q: Point)
    requires Axioms(m)
    ensures SquaredDistance(p, q) == 0.0 <==> p.x == q.x && p.y == q.y
  {
    DistanceIsNorm(m, p, q);
    if SquaredDistance(p, q) == 0.0 {
      assert Norm(m, Between(p, q)) == 0.0;
      assert Between(p, q) == Zero;
    }
  }

  /** The angle in degrees between the baseline and live neck-nose
      vectors, or 0 when either has no length. */
  function AngleDifference(m: Math, cal: Vec2, cur: Vec2): (r: real)
    requires Axioms(m)
    ensures 0.0 <= r <= 180.0
    ensures cal == Zero || cur == Zero ==> r == 0.0
  {
    var nc, nu := Norm(m, cal), Norm(m, cur);
    if nc > 0.0 && nu > 0.0 then
      var dot := (cal.x / nc) * (cur.x / nu) + (cal.y / nc) * (cur.y / nu);
      var a := m.arccos(Clip(dot, -1.0, 1.0));
      ArccosRange(m, Clip(dot, -1.0, 1.0));
      DegreesWithinHalfTurn(a);
      a * (180.0 / Pi)
    else 0.0
  }

  /** The angle signal: twice the angle difference. */
  function AnglePercentage(m: Math, cal: Vec2, cur: Vec2): (r: real)
    requires Axioms(m)
    ensures 0.0 <= r <= 360.0
    ensures cal == Zero || cur == Zero ==> r == 0.0
  {
    AngleDifference(m, cal, cur) * 2.0
  }

  /** The baseline nose-neck distance, floored when it is zero: the length
      of the neck-to-nose vector when the two points differ in the plane. */
  function CalibratedDistance(m: Math, nose: Point, neck: Point): (r: real)
    requires Axioms(m)
    ensures 0.0 < r
    ensures SquaredDistance(nose, neck) == 0.0 ==> r == DistanceFloor
    ensures nose.x != neck.x || nose.y != neck.y ==> r == Norm(m, Between(nose, neck))
  {
    var sq := SquaredDistance(nose, neck);
    RootSign(m, sq);
    DistanceIsNorm(m, nose, neck);
    ZeroSquaredDistance(m, nose, neck);
    if sq > 0.0 then m.sqrt(sq) else DistanceFloor
  }

  /** The live nose-neck distance: the length of the neck-to-nose vector,
      zero exactly when the two points coincide in the plane. */
  function LiveDistance(m: Math, nose: Point, neck: Point): (r: real)
    requires Axioms(m)
    ensures 0.0 <= r
    ensures r == 0.0 <==> nose.x == neck.x && nose.y == neck.y
    ensures r == Norm(m, Between(nose, neck))
  {
    var sq := SquaredDistance(nose, neck);
    RootSign(m, sq);
    DistanceIsNorm(m, nose, neck);
    ZeroSquaredDistance(m, nose, neck);
    if sq > 0.0 then m.sqrt(sq) else 0.0
  }

  /** Live over calibrated distance; 1 when the calibrated distance is not
      positive. */
  function DistanceRatio(live: real, cal: real): (r: real)
    ensures cal > 0.0 ==> r * cal == live
    ensures cal <= 0.0 ==> r == 1.0
    ensures cal > 0.0 && 0.0 <= live ==> 0.0 <= r && (r < 1.0 <==> live < cal)
  {
    if cal > 0.0 then
      if 0.0 <= live then QuotientBelowOne(live, cal); live / cal
      else live / cal
    else 1.0
  }

  /** The distance signal: how far the ratio falls below one, in percent. */
  function DistancePercentage(ratio: real): (r: real)
    ensures 0.0 <= ratio ==> 0.0 <= r <= 100.0
    ensures r == 0.0 <==> ratio >= 1.0
    ensures ratio < 1.0 ==> r / 100.0 == 1.0 - ratio
  {
    if ratio < 1.0 then (1.0 - ratio) * 100.0 else 0.0
  }

  /** The mean vertical movement of the two shoulders from the baseline. */
  function ShoulderDrop(cal: Snapshot, cur: Snapshot): real
    requires LeftShoulder in cal && RightShoulder in cal
    requires LeftShoulder in cur && RightShoulder in cur
  {
    ((cur[LeftShoulder].y - cal[LeftShoulder].y) + (cur[RightShoulder].y - cal[RightShoulder].y)) / 2.0
  }

  /** The baseline's vertical nose-to-shoulder-line distance. */
  function ReferenceDistance(cal: Snapshot): (r: real)
    requires Nose in cal && LeftShoulder in cal && RightShoulder in cal
    ensures 0.0 <= r
    ensures r == 0.0 <==> cal[Nose].y == (cal[LeftShoulder].y + cal[RightShoulder].y) / 2.0
  {
    Abs(cal[Nose].y - (cal[LeftShoulder].y + cal[RightShoulder].y) / 2.0)
  }

  /** The shoulder signal: the drop as a percentage of the reference
      distance, or 0 when that distance is zero. Its sign is the sign of the
      drop. */
  function ShoulderPercentage(cal: Snapshot, cur: Snapshot): (r: real)
    requires ScoredKeys <= cal.Keys && ScoredKeys <= cur.Keys
    ensures ReferenceDistance(cal) == 0.0 ==> r == 0.0
    ensures ReferenceDistance(cal) > 0.0 ==> r * ReferenceDistance(cal) == ShoulderDrop(cal, cur) * 100.0
    ensures 0.0 < r <==> ReferenceDistance(cal) > 0.0 && ShoulderDrop(cal, cur) > 0.0
    ensures r < 0.0 <==> ReferenceDistance(cal) > 0.0 && ShoulderDrop(cal, cur) < 0.0
  {
    var drop, reference := ShoulderDrop(cal, cur), ReferenceDistance(cal);
    if reference > 0.0 then
      var q := drop / reference;
      assert q * reference == drop;
      q * 100.0
    else 0.0
  }

  function DistanceTerm(m: Math, cal: Snapshot, cur: Snapshot): real
    requires Axioms(m) && ScoredKeys <= cal.Keys && ScoredKeys <= cur.Keys
  {
    DistancePercentage(DistanceRatio(
      LiveDistance(m, cur[Nose], cur[Neck]), CalibratedDistance(m, cal[Nose], cal[Neck])))
  }

  datatype Score = Score(slouching: bool, percentage: real)

  /** _calculate_slouch: the weighted sum of the three signals, and whether
      it exceeds the threshold. */
  function CalculateSlouch(m: Math, cal: Snapshot, cur: Snapshot, threshold: real): (r: Score)
    requires Axioms(m) && ScoredKeys <= cal.Keys && ScoredKeys <= cur.Keys
    ensures r.slouching <==> r.percentage > threshold
    ensures var shoulder := ShoulderPercentage(cal, cur) * ShoulderFactor;
      shoulder <= r.percentage <= shoulder + 76.0
  {
    DistanceTermBounds(m, cal, cur);
    var pct := ShoulderPercentage(cal, cur) * ShoulderFactor
      + AnglePercentage(m, NeckToNose(cal), NeckToNose(cur)) * AngleFactor
      + DistanceTerm(m, cal, cur) * DistanceFactor;
    Score(pct > threshold, pct)
  }

  /** The distance signal lies in [0, 100], and is 0 exactly when the live
      nose-neck distance is at least the (floored) calibrated one. */
  lemma DistanceTermBounds(m: Math, cal: Snapshot, cur: Snapshot)
    requires Axioms(m) && ScoredKeys <= cal.Keys && ScoredKeys <= cur.Keys
    ensures 0.0 <= DistanceTerm(m, cal, cur) <= 100.0
    ensures DistanceTerm(m, cal, cur) == 0.0 <==>
      LiveDistance(m, cur[Nose], cur[Neck]) >= CalibratedDistance(m, cal[Nose], cal[Neck])
  {
  }

  /** Points that coincide in the plane give the floored calibrated
      distance. */
  lemma CoincidentPointsAreFloored(m: Math, nose: Point, neck: Point)
    requires Axioms(m)
    requires nose.x == neck.x && nose.y == neck.y
    ensures CalibratedDistance(m, nose, neck) == DistanceFloor
  {
  }

  /** What one call of the slouch check leaves behind. A loaded baseline
      lacking one of the scored keys makes the scorer raise KeyError before
      anything is stamped. With a zero threshold, the drawing of a
      not-slouching decision divides by the threshold and raises after the
      cache has been updated: ZeroDivisionError from the division when the
      percentage is a Python number, or, when it is a numpy scalar and the
      division gives nan or -inf, ValueError or OverflowError from the
      conversion of the colour to int. */
  datatype Check =
    | Checked(detector: Detector, slouching: bool)
    | DrawingRaised(detector: Detector)
    | KeyErrorRaised

  /** How a call that reaches the drawing ends: the decision is returned,
      unless it is false and the threshold it is divided by is zero, which
      makes the drawing raise. */
  function Drawn(d: Detector): (r: Check)
    ensures r.Checked? || r.DrawingRaised?
    ensures r.detector == d
    ensures r.DrawingRaised? <==> !d.lastDetected && d.threshold == 0.0
    ensures r.Checked? ==> r.slouching == d.lastDetected
  {
    if !d.lastDetected && d.threshold == 0.0 then DrawingRaised(d) else Checked(d, d.lastDetected)
  }

  /** check_slouching: gives up early when uncalibrated, without a pose,
      with nothing extracted or with a falsy baseline; recomputes and stamps
      the cache once the recompute interval has passed; otherwise keeps the
      cache. Every call that does not give up early draws the cached
      decision. */
  function CheckSlouching(m: Math, d: Detector, pose: Option<Pose>, now: real): (r: Check)
    requires Axioms(m)
    ensures !d.calibrated || pose.None? ==> r == Checked(d, false)
    ensures d.calibrated && pose.Some? && now - d.lastCalcTime < RecomputeInterval ==>
      r == Drawn(d)
    ensures (&& d.calibrated && pose.Some? && now - d.lastCalcTime >= RecomputeInterval
             && (pose.value.NoLandmarkList? || !Truthy(d.baseline))) ==>
      r == Checked(d, false)
    ensures r.KeyErrorRaised? <==>
      d.calibrated && pose.Some? && now - d.lastCalcTime >= RecomputeInterval
      && pose.value.PoseLandmarks? && Truthy(d.baseline) && !(ScoredKeys <= d.baseline.value.Keys)
    ensures r.DrawingRaised? ==> d.threshold == 0.0 && !r.detector.lastDetected
    ensures !r.KeyErrorRaised? && r.detector != d ==>
      && r.detector == d.(lastCalcTime := now, lastDetected := r.detector.lastDetected,
           lastPercentage := r.detector.lastPercentage)
      && r.detector.lastDetected == (r.detector.lastPercentage > d.threshold)
    ensures r.Checked? && r.slouching ==> r.detector.lastDetected
  {
    if !d.calibrated || pose.None? then Checked(d, false)
    else if now - d.lastCalcTime >= RecomputeInterval then
      var cur := Extract(pose.value);
      if |cur| == 0 || !Truthy(d.baseline) then Checked(d, false)
      else if !(ScoredKeys <= d.baseline.value.Keys) then KeyErrorRaised
      else
        ExtractAllOrNothing(pose.value);
        var sc := CalculateSlouch(m, d.baseline.value, cur, d.threshold);
        Drawn(d.(lastDetected := sc.slouching, lastPercentage := sc.percentage, lastCalcTime := now))
    else Drawn(d)
  }

  /** A recomputation stamps the cache with the fresh score, then draws the
      fresh decision. */
  lemma RecomputeStampsCache(m: Math, d: Detector, pose: Option<Pose>, now: real)
    requires Axioms(m) && d.calibrated && pose.Some? && pose.value.PoseLandmarks?
    requires now - d.lastCalcTime >= RecomputeInterval
    requires Truthy(d.baseline) && ScoredKeys <= d.baseline.value.Keys
    ensures var sc := CalculateSlouch(m, d.baseline.value, Extract(pose.value), d.threshold);
      var d' := d.(lastDetected := sc.slouching, lastPercentage := sc.percentage, lastCalcTime := now);
      CheckSlouching(m, d, pose, now)
        == if sc.slouching || d.threshold != 0.0 then Checked(d', sc.slouching) else DrawingRaised(d')
  {
    ExtractAllOrNothing(pose.value);
  }

  /** Throttling: a second check less than one recompute interval after a
      recomputation ends exactly as the first did, whatever pose it is
      given: the cached decision again, or the same failure of the drawing. */
  lemma {:induction false} ThrottledCheckIsCached(m: Math, d: Detector, pose: Option<Pose>, now: real,
      pose2: Option<Pose>, now2: real)
    requires Axioms(m) && d.calibrated && pose2.Some?
    requires pose.Some? && pose.value.PoseLandmarks?
    requires Truthy(d.baseline) && ScoredKeys <= d.baseline.value.Keys
    requires now - d.lastCalcTime >= RecomputeInterval
    requires now <= now2 < now + RecomputeInterval
    ensures var r := CheckSlouching(m, d, pose, now);
      && !r.KeyErrorRaised?
      && CheckSlouching(m, r.detector, pose2, now2) == r
  {
    RecomputeStampsCache(m, d, pose, now);
  }

  /** A detector whose baseline came from this session's averaging never
      raises KeyError, and with a non-zero threshold never raises at all. */
  lemma CompleteBaselineNeverRaises(m: Math, d: Detector, pose: Option<Pose>, now: real)
    requires Axioms(m) && d.baseline.Some? && IsComplete(d.baseline.value)
    ensures !CheckSlouching(m, d, pose, now).KeyErrorRaised?
    ensures d.threshold != 0.0 ==> CheckSlouching(m, d, pose, now).Checked?
  {
  }
}

=== FILE: scoring_facts.dfy ===
/** Consequences of the scoring formula: what a posture scores against
    itself, and the worked example of a shoulder drop.
 */
module ScoringFacts {
  import opened Numerics
  import opened Landmarks
  import opened Scorer

  /** Live vectors in the same direction as the baseline give no angle. */
  lemma {:induction false} SameVectorHasNoAngle(m: Math, v: Vec2)
    requires Axioms(m)
    ensures AnglePercentage(m, v, v) == 0.0
  {
    if v != Zero {
      NormalizedIsUnit(v.x, v.y, Norm(m, v));
      assert Clip(1.0, -1.0, 1.0) == 1.0;
    }
  }

  /** A live snapshot equal to a baseline whose nose and neck are apart
      scores 0 and is reported as slouching only for a negative threshold. */
  lemma {:induction false} IdenticalPostureScoresZero(m: Math, s: Snapshot, threshold: real)
    requires Axioms(m) && ScoredKeys <= s.Keys
    requires s[Nose].x != s[Neck].x || s[Nose].y != s[Neck].y
    ensures CalculateSlouch(m, s, s, threshold).percentage == 0.0
    ensures CalculateSlouch(m, s, s, threshold).slouching <==> threshold < 0.0
  {
    SameVectorHasNoAngle(m, NeckToNose(s));
    var d := LiveDistance(m, s[Nose], s[Neck]);
    assert CalibratedDistance(m, s[Nose], s[Neck]) == d;
    SelfQuotient(d);
    SameSnapshotHasNoDrop(s);
  }

  /** Comparing a snapshot with itself, the shoulders have not moved. */
  lemma SameSnapshotHasNoDrop(s: Snapshot)
    requires ScoredKeys <= s.Keys
    ensures ShoulderPercentage(s, s) == 0.0
  {
    assert ShoulderDrop(s, s) == 0.0;
  }

  /** Nose and neck coinciding in the plane leave no neck-nose vector, so
      there is no angle to measure. */
  lemma CoincidentHasNoAngle(m: Math, s: Snapshot)
    requires Axioms(m) && ScoredKeys <= s.Keys
    requires s[Nose].x == s[Neck].x && s[Nose].y == s[Neck].y
    ensures AnglePercentage(m, NeckToNose(s), NeckToNose(s)) == 0.0
  {
    assert NeckToNose(s) == Zero;
  }

  /** Nose and neck coinciding in the plane, in the baseline and live alike,
      give a live distance of 0 against the floored 0.001: a full distance
      signal. */
  lemma CoincidentHasFullDistanceSignal(m: Math, s: Snapshot)
    requires Axioms(m) && ScoredKeys <= s.Keys
    requires s[Nose].x == s[Neck].x && s[Nose].y == s[Neck].y
    ensures DistanceTerm(m, s, s) == 100.0
  {
  }

  /** A live snapshot equal to a baseline whose nose and neck coincide in the
      plane scores 40: the distance signal is a full 100 and the other two
      are 0. */
  lemma {:induction false} IdenticalDegeneratePostureScoresForty(m: Math, s: Snapshot, threshold: real)
    requires Axioms(m) && ScoredKeys <= s.Keys
    requires s[Nose].x == s[Neck].x && s[Nose].y == s[Neck].y
    ensures CalculateSlouch(m, s, s, threshold).percentage == 40.0
  {
    assert NeckToNose(s) == Zero;
    assert DistanceTerm(m, s, s) == 100.0;
    SameSnapshotHasNoDrop(s);
  }

  /** The decision is a strict comparison: a percentage equal to the
      threshold is not slouching. */
  lemma ThresholdIsStrict(m: Math, cal: Snapshot, cur: Snapshot)
    requires Axioms(m) && ScoredKeys <= cal.Keys && ScoredKeys <= cur.Keys
    ensures var pct := CalculateSlouch(m, cal, cur, 0.0).percentage;
      && !CalculateSlouch(m, cal, cur, pct).slouching
      && (forall t :: t < pct ==> CalculateSlouch(m, cal, cur, t).slouching)
  {
  }

  /** The worked example: nose at (0.5, 0.3), shoulders at (0.3, 0.5) and
      (0.7, 0.5), neck between them. */
  function ExampleBaseline(): Snapshot {
    map[Nose := Point(0.5, 0.3, 0.0), LeftShoulder := Point(0.3, 0.5, 0.0),
        RightShoulder := Point(0.7, 0.5, 0.0), Neck := Point(0.5, 0.5, 0.0)]
  }

  /** The same posture with both shoulders, and so the neck, 0.05 lower. */
  function ExampleSlouched(): Snapshot {
    map[Nose := Point(0.5, 0.3, 0.0), LeftShoulder := Point(0.3, 0.55, 0.0),
        RightShoulder := Point(0.7, 0.55, 0.0), Neck := Point(0.5, 0.55, 0.0)]
  }

  /** In the worked example the shoulder signal is 25, the other two are 0,
      the composite is 20, and a threshold of 15 reports slouching. */
  lemma {:induction false} WorkedExample(m: Math)
    requires Axioms(m)
    ensures ScoredKeys <= ExampleBaseline().Keys && ScoredKeys <= ExampleSlouched().Keys
    ensures ShoulderPercentage(ExampleBaseline(), ExampleSlouched()) == 25.0
    ensures CalculateSlouch(m, ExampleBaseline(), ExampleSlouched(), 15.0) == Score(true, 20.0)
  {
    ExampleShoulderSignal();
    ExampleDistanceSignal(m);
    ExampleAngleSignal(m);
  }

  /** The shoulders drop 0.05 against a reference distance of 0.2. */
  lemma ExampleShoulderSignal()
    ensures ScoredKeys <= ExampleBaseline().Keys && ScoredKeys <= ExampleSlouched().Keys
    ensures ShoulderPercentage(ExampleBaseline(), ExampleSlouched()) == 25.0
  {
    var cal, cur := ExampleBaseline(), ExampleSlouched();
    assert ScoredKeys <= cal.Keys && ScoredKeys <= cur.Keys;
    assert ReferenceDistance(cal) == 0.2;
    assert ShoulderDrop(cal, cur) == 0.05;
  }

  /** The nose-neck distance grows from 0.2 to 0.25, the roots of 0.04 and
      0.0625, so the distance signal is 0. */
  lemma {:induction false} ExampleDistanceSignal(m: Math)
    requires Axioms(m)
    ensures ScoredKeys <= ExampleBaseline().Keys && ScoredKeys <= ExampleSlouched().Keys
    ensures DistanceTerm(m, ExampleBaseline(), ExampleSlouched()) == 0.0
  {
    var cal, cur := ExampleBaseline(), ExampleSlouched();
    assert ScoredKeys <= cal.Keys && ScoredKeys <= cur.Keys;
    assert SquaredDistance(cal[Nose], cal[Neck]) == 0.04;
    assert SquaredDistance(cur[Nose], cur[Neck]) == 0.0625;
    RootSquared(m, 0.04);
    RootSquared(m, 0.0625);
    RootSign(m, 0.04);
    RootSign(m, 0.0625);
    NonNegativeRootIsUnique(m.sqrt(0.04), 0.2);
    NonNegativeRootIsUnique(m.sqrt(0.0625), 0.25);
  }

  /** Both neck-nose vectors point straight up, so the angle signal is 0. */
  lemma {:induction false} ExampleAngleSignal(m: Math)
    requires Axioms(m)
    ensures ScoredKeys <= ExampleBaseline().Keys && ScoredKeys <= ExampleSlouched().Keys
    ensures AnglePercentage(m, NeckToNose(ExampleBaseline()), NeckToNose(ExampleSlouched())) == 0.0
  {
    var cal, cur := ExampleBaseline(), ExampleSlouched();
    assert ScoredKeys <= cal.Keys && ScoredKeys <= cur.Keys;
    var vc, vu := NeckToNose(cal), NeckToNose(cur);
    assert vc == Vec2(0.0, -0.2) && vu == Vec2(0.0, -0.25);
    assert vc.x * vc.x + vc.y * vc.y == 0.04;
    assert vu.x * vu.x + vu.y * vu.y == 0.0625;
    RootSquared(m, 0.04);
    RootSquared(m, 0.0625);
    RootSign(m, 0.04);
    RootSign(m, 0.0625);
    NonNegativeRootIsUnique(m.sqrt(0.04), 0.2);
    NonNegativeRootIsUnique(m.sqrt(0.0625), 0.25);
    assert Norm(m, vc) == 0.2 && Norm(m, vu) == 0.25;
    assert (vc.x / 0.2) * (vu.x / 0.25) + (vc.y / 0.2) * (vu.y / 0.25) == 1.0;
    assert Clip(1.0, -1.0, 1.0) == 1.0;
  }
}

=== FILE: state.dfy ===
/** The detector's state record and its construction.

    The source keeps this state in mutable fields of one object; here it is
    an immutable record, and every operation returns the record it leaves
    behind.
 */
module State {
  import opened Landmarks

  datatype Option<T> = None | Some(value: T)

  /** Seconds of countdown armed by a fresh calibration. */
  const CountdownSeconds: real := 3.0
  /** Length of the sampling window, in seconds. */
  const CalibrationDuration: real := 3.0
  /** Minimum spacing between two calibration samples, in seconds. */
  const SampleInterval: real := 0.1
  /** Minimum spacing between two recomputations of the slouch score. */
  const RecomputeInterval: real := 0.1

  const DataDirectory: string := "data"
  const CalibrationFileName: string := "posture_calibration.pkl"

  datatype Detector = Detector(
    calibrated: bool,
    baseline: Option<Snapshot>,
    threshold: real,
    countdown: real,
    startTime: real,
    samples: seq<Snapshot>,
    lastSampleTime: real,
    calibrationFile: string,
    lastCalcTime: real,
    lastPercentage: real,
    lastDetected: bool)

  /** Python truthiness of the stored baseline: present and non-empty. */
  predicate Truthy(b: Option<Snapshot>) {
    b.Some? && |b.value| > 0
  }

  predicate EndsWith(s: string, suffix: string) {
    |suffix| <= |s| && s[|s| - |suffix|..] == suffix
  }

  /** POSIX os.path.join of a head and a relative tail, as the constructor
      uses it with the two constant components: no separator is added after
      an empty head or one that already ends in a slash. An absolute tail,
      which os.path.join would return alone, never occurs here. */
  function JoinPath(head: string, tail: string): (r: string)
    ensures head <= r && EndsWith(r, tail)
    ensures |tail| > 0 ==> |r| > 0
  {
    if |head| == 0 || head[|head| - 1] == '/' then head + tail
    else head + "/" + tail
  }

  /** Where the baseline is persisted, below the working directory. */
  function CalibrationPath(cwd: string): (r: string)
    ensures |r| > 0
    ensures cwd <= r && EndsWith(r, CalibrationFileName)
  {
    JoinPath(JoinPath(cwd, DataDirectory), CalibrationFileName)
  }

  /** The fields as the constructor sets them, before it loads a stored
      baseline: uncalibrated, no baseline, no countdown, no samples and an
      empty score cache. */
  function Initial(threshold: real, cwd: string): (d: Detector)
    ensures !d.calibrated && d.baseline == None && d.threshold == threshold
    ensures d.countdown == 0.0 && d.startTime == 0.0 && d.lastSampleTime == 0.0
    ensures d.samples == []
    ensures d.calibrationFile == CalibrationPath(cwd)
    ensures d.lastCalcTime == 0.0 && d.lastPercentage == 0.0 && !d.lastDetected
  {
    Detector(false, None, threshold, 0.0, 0.0, [], 0.0, CalibrationPath(cwd), 0.0, 0.0, false)
  }

  /** Every collected sample is a complete snapshot. Samples only ever come
      from extraction, so this holds of every reachable detector. */
  ghost predicate SamplesComplete(d: Detector) {
    AllComplete(d.samples)
  }
}

=== FILE: store.dfy ===
/** The baseline store: when a baseline may be persisted, and what loading
    one does to the detector.

    The serialisation itself is not modelled. The store file is an abstract
    value, and the outcome of opening and writing it is a parameter chosen
    by the environment.
 */
module Store {
  import opened Landmarks
  import opened State

  /** The calibration file: absent, unreadable as a pickle, or holding a
      stored object (a snapshot mapping or None). */
  datatype StoreFile = Missing | Corrupt | Holds(content: Option<Snapshot>)

  /** How an attempt to write the file ends: written, the open fails (for
      example because the data directory does not exist), or the dump fails
      after the file was truncated. */
  datatype WriteOutcome = Written | OpenFailed | DumpFailed

  datatype Saved = Saved(file: StoreFile, ok: bool)

  datatype Loaded = Loaded(detector: Detector, ok: bool)

  /** Whether the detector has anything to save. */
  predicate HasBaseline(d: Detector) {
    d.calibrated && d.baseline.Some?
  }

  /** save_calibration. Refuses without touching the file unless the
      detector is calibrated with a baseline; otherwise the result reports
      whether the write went through. */
  function Save(d: Detector, file: StoreFile, write: WriteOutcome): (r: Saved)
    ensures r.ok <==> HasBaseline(d) && write == Written
    ensures r.ok ==> r.file == Holds(d.baseline)
    ensures !HasBaseline(d) ==> r.file == file
    ensures r.file != file ==> HasBaseline(d) && write != OpenFailed
  {
    if !HasBaseline(d) then Saved(file, false)
    else
      match write
      case Written => Saved(Holds(d.baseline), true)
      case OpenFailed => Saved(file, false)
      case DumpFailed => Saved(Corrupt, false)
  }

  /** load_calibration. An empty path, a missing file and an unreadable file
      leave the detector as it was. A readable file always replaces the
      baseline, but marks the detector calibrated only when what it held is
      a non-empty mapping; a falsy content leaves `calibrated` as it was. */
  function Load(d: Detector, file: StoreFile): (r: Loaded)
    ensures r.ok <==> |d.calibrationFile| > 0 && file.Holds? && Truthy(file.content)
    ensures r.ok ==> r.detector == d.(calibrated := true, baseline := file.content)
    ensures !r.ok ==> r.detector.calibrated == d.calibrated
    ensures |d.calibrationFile| > 0 && file.Holds? ==> r.detector.baseline == file.content
    ensures r.detector.baseline != d.baseline ==> file.Holds? && r.detector.baseline == file.content
    ensures r.detector.(calibrated := d.calibrated, baseline := d.baseline) == d
  {
    if |d.calibrationFile| == 0 then Loaded(d, false)
    else
      match file
      case Missing => Loaded(d, false)
      case Corrupt => Loaded(d, false)
      case Holds(content) =>
        var d' := d.(baseline := content);
        if Truthy(content) then Loaded(d'.(calibrated := true), true)
        else Loaded(d', false)
  }

  /** The constructor: initial fields, then an attempt to load the stored
      baseline from the file below the working directory. */
  function New(threshold: real, cwd: string, file: StoreFile): (d: Detector)
    ensures d.calibrated <==> file.Holds? && Truthy(file.content)
    ensures d.baseline == (if file.Holds? then file.content else None)
    ensures d.threshold == threshold && d.samples == [] && d.countdown == 0.0
  {
    Load(Initial(threshold, cwd), file).detector
  }

  /** A saved baseline loads back unchanged: after a successful save, a load
      from the written file restores the same baseline and, when it is non
      empty, the calibrated flag. */
  lemma SaveThenLoad(d: Detector, file: StoreFile, write: WriteOutcome, other: Detector)
    requires Save(d, file, write).ok
    requires |other.calibrationFile| > 0
    ensures var l := Load(other, Save(d, file, write).file);
      && l.detector.baseline == d.baseline
      && (l.ok <==> Truthy(d.baseline))
      && (Truthy(d.baseline) ==> l.detector.calibrated)
  {
  }

  /** A detector constructed from a file holding a non-empty baseline can
      save it back: the write succeeds exactly when it goes through, and
      then the file holds the same baseline again. */
  lemma NewThenSave(threshold: real, cwd: string, b: Snapshot, file: StoreFile, write: WriteOutcome)
    requires |b| > 0
    ensures var d := New(threshold, cwd, Holds(Some(b)));
      && (Save(d, file, write).ok <==> write == Written)
      && (write == Written ==> Save(d, file, write).file == Holds(Some(b)))
  {
  }

  /** Loading never clears the calibrated flag, and sets it only from a
      non-empty stored mapping. */
  lemma LoadCalibratesOnlyFromData(d: Detector, file: StoreFile)
    ensures d.calibrated ==> Load(d, file).detector.calibrated
    ensures !d.calibrated && Load(d, file).detector.calibrated ==> Truthy(Load(d, file).detector.baseline)
  {
  }

  /** A refused or failed save reports failure, and a file it touched is
      left unreadable rather than holding a partial baseline. */
  lemma FailedSaveNeverHoldsData(d: Detector, file: StoreFile, write: WriteOutcome)
    requires write != Written
    ensures !Save(d, file, write).ok
    ensures Save(d, file, write).file == file || Save(d, file, write).file == Corrupt
  {
  }
}
